=== FILE: README.md ===
# Presentation practice: a Dafny model of the request rules and pure helpers

The application records a spoken presentation in the browser. It posts the
audio, base64-encoded, to a cloud function. The function stores the audio,
has it transcribed, scores the transcript with a local heuristic analyser,
composes written feedback and answers with that feedback and a (placeholder)
audio clip. This project models the deterministic rules inside that flow and
proves properties of them:

- `backend.dfy` (module `Backend`) covers `backend/lambda_function.py`:
  - the handler's 400/500/200 decision;
  - the storage keys, job name and cleanup keys derived from one session id;
  - the transcription poll over a sequence of job statuses;
  - transcript assembly;
  - the local analyser (word count, exact `real` confidence, filler and
    "too short" rules);
  - the feedback composer and the constant audio feedback.
- `app.dfy` (module `App`) covers `src/App.tsx`:
  - `formatTime`;
  - the timer-tick updater and `stopRecording`'s state change;
  - the chunk filter;
  - the request body;
  - the `playFeedback` source.
- `config.dfy` (module `Config`) covers `src/config.ts`: the constants,
  `getApiUrl`, and `getRecordingButtonSize` with the window width passed in.
- `consistency.dfy` (module `Consistency`) states what holds across the two
  sides: the request the front end sends, as the handler reads it, and the
  audio the handler returns, as the front end plays it.
- `text.dfy` (module `Text`) holds the library string operations the
  source relies on. These are Python's `str.split()`, `str.lower()` and `in`,
  and JavaScript's `toString()` and `padStart`.
- `optional.dfy` (module `Optional`) holds the `Option` type used for absent
  JSON keys.

External services are replaced by their outcomes. An `Environment` record
carries:

- whether base64 decoding, the upload and the job start succeed;
- the successive answers of the job query: a status, or a query that raises
  (`QueryFailed`);
- the parsed transcript, or nothing when the fetch fails;
- whether the first delete succeeds.

`Backend.Handle` returns the response together with the trace of service
calls it attempted. It returns `Waiting` while the poll has seen no terminal
status, because the poll loop has no bound. Its cleanup deletes the keys of
`Backend.CleanupKeys`, as written: the audio key is always the `.webm` one.
`Backend.CleanupKeysFor` is the corrected cleanup (see Findings). The summary template, which
renders the duration with `{:.1f}`, is a parameter `summarize`.

## Model

| member | source | states |
|---|---|---|
| Backend.HandleRejectsMissingAudio | backend/lambda_function.py:33-43 | The answer is 400 exactly when the body parsed and `audioData` is absent or empty. Its body is then "No audio data provided" and no service was called. |
| Backend.HandleRejectsMissingBody | backend/lambda_function.py:28 | An event with no body is read as `{}` and answered with 400, with no service called. |
| Backend.HandleServerErrors | backend/lambda_function.py:90-101 | Every 500 carries "Internal server error". A failed decode, upload or job start gives 500. So does a failed job, and so does a status query that raises. |
| Backend.HandleAnswersAfterTranscription | backend/lambda_function.py:127-135 | After the job completes, the handler answers, and the answer is 200 exactly when the transcript was fetched and parsed. |
| Backend.HandleWaitsWhilePolling | backend/lambda_function.py:123-142 | The invocation is still polling exactly when everything up to the job start succeeded and no reported status is terminal. |
| Backend.HandleSuccess | backend/lambda_function.py:74-88 | A 200 implies that every step succeeded. Its confidence is in [70, 85], its feedback ends with the "Excellent" remark and its audio is the placeholder. The trace is the upload, the job start, the fetch, and then a delete of the `.webm` cleanup key. That delete hits the uploaded key exactly when the format is `webm`. The response is the success response for the text assembled from the fetched transcript, and the trace is exactly `Backend.SuccessEffects`. |
| Backend.HandleKeyedBySession | backend/lambda_function.py:49-72 | The upload, the job media and the job name use keys derived from the one session id, and every delete is one of that session's cleanup keys. The fetch goes to the configured bucket, under a key taken from the job's transcript URI. |
| Backend.HandleFailureTrace | backend/lambda_function.py:26-101 | The handler stops at the first call that raises. With no body, no audio or a failed decode it calls nothing. A failed upload attempted only the upload. A failed job start, a failed or unreadable job, or a pending poll attempted the upload and the job start. A failed fetch attempted those two and the fetch. |
| Backend.HandleCleansUpOnlyOnSuccess | backend/lambda_function.py:71-72 | No delete is attempted unless the answer is 200, so a failed invocation leaves its stored audio behind. |
| Backend.Handle | backend/lambda_function.py:22-101 | Every answer carries the CORS headers, its status is 200, 400 or 500, and every non-200 answer has an error body. |
| Backend.SuccessResponse | backend/lambda_function.py:74-88 | The 200 response built from a transcript text. Its confidence and mistakes are exactly those of the text's word count, and its feedback is the analyser's summary followed by the "Excellent" remark. Confidence is in [70, 85], the audio is the placeholder, and the filler and expansion entries appear exactly under their rules. |
| Backend.SuccessEffects | backend/lambda_function.py:52-72 | The calls of a successful run, in order: upload, job start, transcript fetch, then the cleanup deletes of the keys as written. All of them are keyed by the session. |
| Backend.Submission | backend/lambda_function.py:49-60 | The upload goes to `recordings/{id}.{format}` with type `audio/{format}`, and then the job is started over the uploaded key. |
| Backend.StartCall | backend/lambda_function.py:103-114 | The job is `transcription-{id}` over `s3://{bucket}/{key}`, with media format `webm` and `en-US`; the session id and the key can be read back from it. |
| Backend.FetchCall | backend/lambda_function.py:129-133 | The transcript is fetched from the configured bucket, under the last `/`-separated segment of the completed job's transcript URI. |
| Backend.CleanupEffects | backend/lambda_function.py:261-274 | The deletes go to the bucket, in the order of the cleanup keys as written. There are two deletes exactly when the first succeeds: a failed first delete skips the second, and the exception is swallowed. |
| Backend.AudioKey | backend/lambda_function.py:50 | The key is `recordings/`, then the session id, then `.`, then the format, each readable back from its position. |
| Backend.JobName | backend/lambda_function.py:107 | The job name is `transcription-` followed by the session id. |
| Backend.JobNameInjective | backend/lambda_function.py:107 | Different session ids give different job names. |
| Backend.MediaUri | backend/lambda_function.py:112 | The media URI is `s3://`, then the bucket, then `/` and the key, with nothing else. |
| Backend.CleanupKeys | backend/lambda_function.py:263-272 | Cleanup deletes the `.webm` audio key, then a `transcriptions/….json` key. |
| Backend.TranscriptKeyNamesSession | backend/lambda_function.py:269-272 | The transcript key has the session id between `transcriptions/` and `.json`. |
| Backend.CleanupKeysInjective | backend/lambda_function.py:263-272 | Two sessions that share either cleanup key are the same session. |
| Backend.CleanupHitsStoredKeyIffWebm | backend/lambda_function.py:263-266 | The audio key cleanup deletes equals the stored key exactly when the stored format is `webm`. |
| Backend.CleanupMissesWavRecording | backend/lambda_function.py:263-266 | For session `req-1` stored as `wav`, the stored key is among neither of the cleanup keys. |
| Backend.CleanupKeysFor | backend/lambda_function.py:263-272 | The corrected cleanup keys keep the transcript key unchanged. |
| Backend.CleanupKeysForHitsStoredKey | backend/lambda_function.py:263-266 | The corrected cleanup deletes the stored key for every format, and it agrees with the original for `webm`. |
| Backend.FailureMessage | backend/lambda_function.py:138 | The message is "Transcription failed: " followed by the service's reason, or by "Unknown error" when there is none. |
| Backend.Poll | backend/lambda_function.py:123-142 | The poll ends at the first terminal status. It succeeds there if that status is COMPLETED. It fails there with the failure message if it is FAILED. It raises there if the status query itself raised. It is still polling exactly when no answer seen so far is terminal. |
| Backend.PollIgnoresLaterStatuses | backend/lambda_function.py:123-139 | Once the poll has ended, statuses reported afterwards change nothing. |
| Backend.PollNeverGivesUp | backend/lambda_function.py:140-142 | Any number of IN_PROGRESS answers leaves the poll still waiting: there is no bound. |
| Backend.LastSegment | backend/lambda_function.py:132 | The fetched key is the suffix of the URI after its last `/`, and it contains no `/`. |
| Backend.AssembleTranscript | backend/lambda_function.py:149-151 | The loop builds the in-order concatenation of the item texts. A missing `results` or `transcripts` key yields `""`. |
| Backend.ItemsTextAppend | backend/lambda_function.py:149-151 | The text of a concatenation of items is the concatenation of their texts, so document order is respected. |
| Backend.ItemsTextSingle | backend/lambda_function.py:151 | An item contributes its transcript, or `""` when it has none. |
| Backend.ItemsTextLength | backend/lambda_function.py:149-151 | The assembled text is exactly as long as its fragments together. |
| Text.WordCountIsStartCount | backend/lambda_function.py:187 | The number of words `split()` returns equals the number of positions where a word starts, a definition that does not cut the text. |
| Text.WordsKeepContent | backend/lambda_function.py:187 | The words of a text, joined, are exactly its non-whitespace characters in order. |
| Text.Words | backend/lambda_function.py:187 | Every element `split()` returns is a non-empty whitespace-free word. |
| Text.WordsAreMaximalRuns | backend/lambda_function.py:187 | Every element `split()` returns occurs in the text as a maximal run: whitespace or the text's start comes before it, and whitespace or the text's end comes after it. |
| Backend.WordCount | backend/lambda_function.py:187 | The word count is the number of word starts in the text. |
| Backend.Confidence | backend/lambda_function.py:191 | The score lies in [70, 85]. It is 85 exactly when there are at least 1500 words, and below that it is exactly 70 + wc/100. |
| Backend.LowerClampInert | backend/lambda_function.py:191 | The lower clamp at 40 never changes the value. |
| Backend.ConfidenceMonotone | backend/lambda_function.py:191 | More words never lower the score. |
| Backend.HasFillerIff | backend/lambda_function.py:195 | The filler test holds exactly when a `u`/`U` is followed by `m`/`M`/`h`/`H` somewhere in the text, inside a word or not. |
| Backend.FillerFound | backend/lambda_function.py:195 | A reported filler sits at some index of the original text. |
| Backend.FillerDetected | backend/lambda_function.py:195 | Any such pair in the text is reported. |
| Backend.NumberCountsAsFiller | backend/lambda_function.py:195 | The word "number" is reported as a filler. |
| Backend.Mistakes | backend/lambda_function.py:194-199 | The filler entry is present exactly when the filler test holds, and the expansion entry exactly when there are fewer than 50 words. There is nothing else, at most two entries, and the filler entry comes first. |
| Backend.LocalAnalysis | backend/lambda_function.py:187-214 | The word count is the number of word starts, and the duration is a 150 words-per-minute estimate. The confidence, the mistakes and the summary are the ones the helpers give for that text and count. |
| Backend.Remark | backend/lambda_function.py:225-230 | The low remark is chosen exactly below 50, the middle one exactly in [50, 70) and the "Excellent" one exactly from 70. |
| Backend.GenerateFeedback | backend/lambda_function.py:220-236 | Confidence and mistakes pass through unchanged. The feedback is the analysis text followed by exactly one of the three remarks, chosen by tier. |
| Backend.LocalAnalysisAlwaysExcellent | backend/lambda_function.py:191 | Composed with the local analyser, the feedback always gets the "Excellent" remark. |
| Backend.GenerateAudioFeedback | backend/lambda_function.py:238-255 | The result is a non-empty `data:audio/mp3;base64,` URI, whatever the feedback. |
| Consistency.EmptyRecordingIsRejected | backend/lambda_function.py:33-43 | An empty recording from the front end is answered with 400 before any service is called. |
| Consistency.FrontEndUploadsAreCleanedUp | backend/lambda_function.py:263-266 | For front-end requests, which always say `webm`, the cleanup as written deletes exactly the stored audio key and agrees with the corrected cleanup. |
| Consistency.MaxDurationAgrees | src/config.ts:21 | The recording limit is 1200 seconds on the front end, in its configuration and on the back end. |
| Consistency.AsHandlerBody | src/App.tsx:155-159 | The handler reads the front end's body with the audio present and the format it was sent with. |
| Consistency.UploadTypeMatchesRecorder | src/config.ts:22 | The content type the handler uploads a front-end recording with is the recorder's MIME type up to its `;codecs` parameter. |
| Consistency.RequestMatchesHandlerDefaults | src/App.tsx:155-159 | The front end always sends the handler's default format and sample rate. |
| Consistency.SamePrefix | src/App.tsx:183 | Both sides spell the data-URI prefix identically. |
| Consistency.PlayedPlaceholderHasPrefixTwice | src/App.tsx:183 | The source played for the handler's placeholder starts with the data-URI prefix twice. |
| Consistency.SuccessfulAnswerPlaysDoubledPrefix | src/App.tsx:181-186 | Every 200 answer is played with the prefix doubled. |
| Consistency.FixedPlaybackHasPrefixOnce | src/App.tsx:181-186 | The corrected playback plays the handler's URI unchanged, so the prefix occurs once at its head. |
| Consistency.TimerDisplayFits | src/App.tsx:201 | Every duration the timer can reach is displayed as five characters with `:` in the middle. |
| App.FormatTime | src/App.tsx:175-179 | The display holds the whole minutes before the last `:` and the remaining seconds as two digits after it. It is five characters long exactly when the time is under 6000 seconds; longer minutes are never cut. From ten minutes on, the minutes are the plain decimal rendering, with no padding. |
| App.FormatTimeInjective | src/App.tsx:175-179 | Different times never have the same display. |
| App.FormatTimeWithinLimit | src/App.tsx:175-179 | Below the recording limit the display is `MM:SS`, with `:` at index 2. |
| App.Field | src/App.tsx:178 | A field has at least two digits and reads back as the number. It has exactly two digits when the number is below 100. Below 10 it is `0` followed by the digit; from 10 on it is the plain decimal rendering. |
| App.PaddedReadsBack | src/App.tsx:178 | Left-padding the decimal rendering with `0` keeps its value. |
| App.MinutesAndSeconds | src/App.tsx:176-177 | The seconds field is below 60, and 60 times the minutes plus the seconds is the time. |
| Text.NatToStringRoundTrip | src/App.tsx:178 | Reading back the decimal rendering of a number gives the number. |
| Text.NatToStringShort | src/App.tsx:178 | The rendering fits in two characters exactly when the number is below 100. |
| Text.PadStart | src/App.tsx:178 | The padded string has the padded length, ends with the original and is padded only with the pad character. |
| Text.LeadingZeros | src/App.tsx:178 | Leading zeros do not change the value of a digit string. |
| App.Tick | src/App.tsx:108-115 | Below the limit a tick adds one second and changes nothing else. At the limit it requests a stop and leaves the state as it was. |
| App.TicksCount | src/App.tsx:107-116 | From a duration within the limit, n ticks reach min(d + n, MAX_DURATION − 1). A stop is requested exactly when d + n reaches the limit, and the flag and chunks never change. |
| App.DurationBounded | src/App.tsx:100-116 | Starting from 0, the duration stays within [0, MAX_DURATION − 1]. |
| App.Stop | src/App.tsx:139 | Stopping clears `isRecording` and keeps the duration and the chunks. |
| App.StopIdempotent | src/App.tsx:139 | Stopping twice is stopping once, and stopping forgets only the flag. |
| App.NonEmpty | src/App.tsx:77-81 | The kept chunks all have positive size, and a chunk is kept exactly when it arrived with positive size. |
| App.CollectChunks | src/App.tsx:77-81 | The handler, run over the events in arrival order, keeps exactly the filtered sequence. |
| App.NonEmptyAppend | src/App.tsx:77-81 | Filtering distributes over concatenation, so arrival order is kept. |
| App.NonEmptyKeepsBytes | src/App.tsx:77-87 | Dropping empty chunks does not change the recorded bytes. |
| App.BuildRequest | src/App.tsx:155-159 | The body carries the given audio, format `webm` and the configured sample rate. |
| App.ProcessUrl | src/App.tsx:150 | The recording is posted to the base URL followed by `/process-recording`. |
| App.PlaySource | src/App.tsx:181-186 | Something is played exactly when the audio text is present and non-empty. What is played is the prefix followed by that text. |
| App.PlaySourceFixed | src/App.tsx:181-186 | The corrected source is played under the same condition. It always starts with the prefix, and a text that is already a data URI is played as it is. |
| Config.GetApiUrl | src/config.ts:51-53 | The URL starts with the base URL, and the endpoint can be read back after it. |
| Config.GetApiUrlInjective | src/config.ts:51-53 | Different endpoints give different URLs. |
| Config.ProcessingUrl | src/config.ts:8-10 | The processing URL is the base URL followed by `/process-recording`. |
| Config.RecordingButtonSize | src/config.ts:56-61 | The size is 120 exactly up to 480 px, 150 exactly in (480, 768] and 200 exactly beyond 768. |
| Config.ButtonSizeMonotone | src/config.ts:56-61 | A wider window never gets a smaller button. |

## Left out

- The storage, transcription and function clients, `time.sleep`, logging and the `lambda_client` are left out. Each service call is an outcome in `Environment` (a flag, a status sequence or a parsed document). The handler reports the calls it attempted, with their arguments, as a trace.
- `json.loads`, `json.dumps` and `base64.b64decode` are library behaviour. The parsed body is a record with optional fields, and a body that cannot be read as an object (`Unparsable`, including JSON `null` or a list) answers 500. Decoding is the `decodes` flag.
- `{:.1f}` float rendering and the summary text are a parameter `summarize` of the analyser, given the duration and the word count. Confidence and duration are exact `real`s; float rounding is not modelled.
- `analyze_with_nova_sonic`'s prompt text and `generate_audio_feedback`'s narration text are built but never used, so they are not modelled. The same goes for the `sampleRate` the handler reads and passes on.
- A JSON `audioFormat` that is not a string is modelled by its rendering: the field holds the text an f-string makes of the value, so `null` is `"None"` and the upload goes to `recordings/{id}.None`. How `str()` renders numbers, lists or objects is not modelled.
- `S3_BUCKET` comes from the process environment (default `presentation-practice-audio`). It is the free `bucket` field of `Environment`, so the default is not modelled.
- A JSON `audioData` that is not a string is not modelled. When it is truthy, the decode raises and the answer is 500, which the `decodes` flag already covers.
- `MAX_AUDIO_DURATION` is never enforced by the handler, and the model does not enforce it either.
- The job `Settings` (speaker labels, confidence) are left out; they do not affect any decision.
- Backend.Handle: its own contract is only the shape facts. The behaviour is stated by the `Handle…` lemmas, and Backend.HandleSuccess states the success path's content.
- Text.ToLower: only ASCII letters are lowered. No non-ASCII character lowers to `u`, `m` or `h`, but Python's full Unicode case mapping is not modelled.
- A transcript item whose `transcript` is JSON `null`, which would raise and answer 500, is not modelled. An item has a string or no key.
- A transcript document whose `results` or `transcripts` is JSON `null` also raises and answers 500; this is not modelled either. Each of them is present or absent, and an absent one yields `""`.
- `analyze_with_nova_sonic` and `generate_audio_feedback` are named and documented as remote Nova Sonic calls, but the handler never calls a remote service: it always runs the local simulator and returns the fixed placeholder, and the model follows the handler.
- App.FormatTime: it takes a `nat`. Negative or fractional seconds never reach it, because the timer counts up from 0 in whole seconds.
- React rendering, hooks and the closure captured by the interval are left out. So are `MediaRecorder`, `getUserMedia`, `fetch`, `btoa`, `Audio`, `setInterval` and `window.innerWidth`. Each updater is a function from the previous state to the next. `Tick` reports that it called `stopRecording`; whether that closure really stops the recorder is not modelled.
- The CSS, colour, layout and feature-flag constants are left out. So are `channelCount` and the echo, noise and gain switches, which only go to `getUserMedia`.

## Findings

| source | as written | input that shows it | evidently intended | confidence | as-written member | corrected member |
|---|---|---|---|---|---|---|
| backend/lambda_function.py:263-266 | Cleanup always deletes `recordings/{id}.webm`. | A request with `audioFormat` `wav` and session id `req-1` stores `recordings/req-1.wav`, which neither cleanup key names. | Delete the key the audio was stored under, `recordings/{id}.{audio_format}`. | not executed | Backend.CleanupMissesWavRecording | Backend.CleanupKeysForHitsStoredKey |
| src/App.tsx:183 | `playFeedback` prefixes `data:audio/mp3;base64,` to `audioFeedback`. | The handler's `audioFeedback` is the placeholder, which already starts with that prefix, so the source becomes `data:audio/mp3;base64,data:audio/mp3;base64,UklG…`. | Play the returned data URI as it is, and add the prefix only to bare base64. | not executed | Consistency.PlayedPlaceholderHasPrefixTwice | Consistency.FixedPlaybackHasPrefixOnce |

=== FILE: app.dfy ===
/** The pure parts of the front-end component: the timer display, the
    recording-timer updater, the stop update, chunk collection, the request
    body and the playback source. React, the media recorder, timers and
    `fetch` are left out; each state update is a function from the previous
    state to the next. */
module App {
  import opened Optional
  import Text
  import Config

  /** `MAX_DURATION`, the recording limit in seconds. */
  const MaxDuration: int := Config.MaxDuration

  // ---------------------------------------------------------------------------
  // formatTime
  // ---------------------------------------------------------------------------

  /** One field of the display: `n.toString().padStart(2, '0')`. */
  function Field(n: nat): (f: string)
    ensures |f| >= 2 && Text.AllDigits(f)
    ensures Text.DigitsValue(f) == n
    ensures |f| == 2 <==> n < 100
    ensures n < 10 ==> f == "0" + Text.NatToString(n)
    ensures n >= 10 ==> f == Text.NatToString(n)
  {
    PaddedReadsBack(n);
    Text.NatToStringShort(n);
    Text.PadStart(Text.NatToString(n), 2, '0')
  }

  /** Zero padding does not change the number the digits denote. */
  lemma PaddedReadsBack(n: nat)
    ensures Text.AllDigits(Text.PadStart(Text.NatToString(n), 2, '0'))
    ensures Text.DigitsValue(Text.PadStart(Text.NatToString(n), 2, '0')) == n
  {
    var s := Text.NatToString(n);
    Text.NatToStringRoundTrip(n);
    if |s| < 2 {
      Text.LeadingZeros(2 - |s|, s);
    }
  }

  /** `r` reads as `MM:SS` with `mins` before the last `:` and the two-digit
      `secs` after it. */
  predicate Displays(r: string, mins: nat, secs: nat) {
    && |r| >= 5 && r[|r| - 3] == ':'
    && Text.AllDigits(r[..|r| - 3]) && Text.DigitsValue(r[..|r| - 3]) == mins
    && Text.AllDigits(r[|r| - 2..]) && Text.DigitsValue(r[|r| - 2..]) == secs
  }

  /** `formatTime(seconds)`: minutes and seconds, each left-padded with `0` to
      two digits, joined by `:`. The minutes field is never cut short. */
  function FormatTime(seconds: nat): (r: string)
    ensures Displays(r, seconds / 60, seconds % 60)
    ensures |r| == 5 <==> seconds < 6000
    ensures seconds / 60 >= 10 ==> r[..|r| - 3] == Text.NatToString(seconds / 60)
  {
    var mins := Field(seconds / 60);
    var secs := Field(seconds % 60);
    MinutesAndSeconds(seconds);
    JoinFields(mins, secs);
    mins + ":" + secs
  }

  /** The split into whole minutes and remaining seconds. */
  lemma MinutesAndSeconds(seconds: nat)
    ensures seconds % 60 < 60
    ensures 60 * (seconds / 60) + seconds % 60 == seconds
    ensures seconds / 60 < 100 <==> seconds < 6000
  {
  }

  /** Two digit fields joined by `:` can be read back from either side of it. */
  lemma JoinFields(mins: string, secs: string)
    requires |mins| >= 2 && |secs| == 2
    requires Text.AllDigits(mins) && Text.AllDigits(secs)
    ensures Displays(mins + ":" + secs, Text.DigitsValue(mins), Text.DigitsValue(secs))
    ensures |mins + ":" + secs| == |mins| + 3
    ensures (mins + ":" + secs)[..|mins|] == mins
  {
    var r := mins + ":" + secs;
    assert r[..|r| - 3] == mins;
    assert r[|r| - 2..] == secs;
  }

  /** The display determines the time: different times never look alike. */
  lemma FormatTimeInjective(a: nat, b: nat)
    requires FormatTime(a) == FormatTime(b)
    ensures a == b
  {
    MinutesAndSeconds(a);
    MinutesAndSeconds(b);
  }

  /** Within the recording limit the display is always `MM:SS`. */
  lemma FormatTimeWithinLimit(seconds: nat)
    requires seconds < MaxDuration
    ensures |FormatTime(seconds)| == 5 && FormatTime(seconds)[2] == ':'
  {
  }

  // ---------------------------------------------------------------------------
  // Recording state and its updaters
  // ---------------------------------------------------------------------------

  /** A recorded chunk; its `size` is the number of bytes. */
  datatype Blob = Blob(bytes: seq<bv8>) {
    function Size(): nat { |bytes| }
  }

  /** The `RecordingState` interface. */
  datatype RecordingState = RecordingState(isRecording: bool, duration: int, audioChunks: seq<Blob>)

  /** The state set when recording starts. */
  const Started: RecordingState := RecordingState(true, 0, [])

  /** The state of the timer updater after one tick, and whether the updater
      called `stopRecording`. */
  datatype TickResult = TickResult(state: RecordingState, stopRequested: bool)

  /** The updater the one-second interval passes to `setRecordingState`. */
  function Tick(prev: RecordingState): (r: TickResult)
    ensures prev.duration + 1 < MaxDuration ==>
      !r.stopRequested && r.state.duration == prev.duration + 1
      && r.state.isRecording == prev.isRecording && r.state.audioChunks == prev.audioChunks
    ensures prev.duration + 1 >= MaxDuration ==> r.stopRequested && r.state == prev
  {
    var newDuration := prev.duration + 1;
    if newDuration >= MaxDuration then TickResult(prev, true)
    else TickResult(prev.(duration := newDuration), false)
  }

  /** `n` interval firings from `s`; the one that requests a stop is the last,
      since `stopRecording` clears the interval. */
  function Ticks(s: RecordingState, n: nat): TickResult
    decreases n
  {
    if n == 0 then TickResult(s, false)
    else
      var t := Tick(s);
      if t.stopRequested then t else Ticks(t.state, n - 1)
  }

  function MinInt(a: int, b: int): int { if a <= b then a else b }

  /** From a duration inside the limit, `n` ticks count up to `MAX_DURATION - 1`
      and stop there; a stop is requested exactly when the limit is reached. */
  lemma {:induction false} TicksCount(s: RecordingState, n: nat)
    requires 0 <= s.duration < MaxDuration
    ensures Ticks(s, n).state.duration == MinInt(s.duration + n, MaxDuration - 1)
    ensures Ticks(s, n).stopRequested <==> s.duration + n >= MaxDuration
    ensures Ticks(s, n).state.isRecording == s.isRecording
    ensures Ticks(s, n).state.audioChunks == s.audioChunks
    decreases n
  {
    if n > 0 && s.duration + 1 < MaxDuration {
      TicksCount(Tick(s).state, n - 1);
    }
  }

  /** Starting from zero, the duration never leaves `[0, MAX_DURATION - 1]`. */
  lemma DurationBounded(n: nat)
    ensures 0 <= Ticks(Started, n).state.duration <= MaxDuration - 1
  {
    TicksCount(Started, n);
  }

  /** The state update of `stopRecording`. */
  function Stop(s: RecordingState): (r: RecordingState)
    ensures !r.isRecording
    ensures r.duration == s.duration && r.audioChunks == s.audioChunks
  {
    s.(isRecording := false)
  }

  /** Stopping twice is stopping once, and stopping forgets only the flag. */
  lemma StopIdempotent(s: RecordingState)
    ensures Stop(Stop(s)) == Stop(s)
    ensures Stop(s) == Stop(s.(isRecording := true))
  {
  }

  // ---------------------------------------------------------------------------
  // Chunk collection
  // ---------------------------------------------------------------------------

  /** The chunks `ondataavailable` keeps: those of positive size, in order. */
  function NonEmpty(events: seq<Blob>): (chunks: seq<Blob>)
    ensures |chunks| <= |events|
    ensures forall k :: 0 <= k < |chunks| ==> chunks[k].Size() > 0
    ensures forall b :: b in chunks <==> b in events && b.Size() > 0
  {
    if |events| == 0 then []
    else
      var last := events[|events| - 1];
      NonEmpty(events[..|events| - 1]) + (if last.Size() > 0 then [last] else [])
  }

  /** The handler applied to each event in arrival order. */
  method CollectChunks(events: seq<Blob>) returns (chunks: seq<Blob>)
    ensures chunks == NonEmpty(events)
  {
    chunks := [];
    var i := 0;
    while i < |events|
      invariant 0 <= i <= |events|
      invariant chunks == NonEmpty(events[..i])
    {
      assert events[..i + 1][..i] == events[..i];
      assert NonEmpty(events[..i + 1]) == chunks + (if events[i].Size() > 0 then [events[i]] else []);
      if events[i].Size() > 0 {
        chunks := chunks + [events[i]];
      }
      i := i + 1;
    }
    assert events[..|events|] == events;
  }

  /** Filtering keeps arrival order: it distributes over concatenation. */
  lemma {:induction false} NonEmptyAppend(a: seq<Blob>, b: seq<Blob>)
    ensures NonEmpty(a + b) == NonEmpty(a) + NonEmpty(b)
    decreases |b|
  {
    if |b| == 0 {
      assert a + b == a;
    } else {
      var b' := b[..|b| - 1];
      assert (a + b)[..|a + b| - 1] == a + b';
      NonEmptyAppend(a, b');
    }
  }

  /** The bytes of a sequence of chunks, in order: the content of the final blob. */
  function BlobBytes(chunks: seq<Blob>): seq<bv8> {
    if |chunks| == 0 then [] else BlobBytes(chunks[..|chunks| - 1]) + chunks[|chunks| - 1].bytes
  }

  /** Dropping empty chunks does not change the recorded bytes. */
  lemma {:induction false} NonEmptyKeepsBytes(events: seq<Blob>)
    ensures BlobBytes(NonEmpty(events)) == BlobBytes(events)
  {
    if |events| > 0 {
      var p := events[..|events| - 1];
      var last := events[|events| - 1];
      NonEmptyKeepsBytes(p);
      if last.Size() > 0 {
        var ne := NonEmpty(p) + [last];
        assert ne[..|ne| - 1] == NonEmpty(p);
        assert BlobBytes(ne) == BlobBytes(NonEmpty(p)) + last.bytes;
      } else {
        assert NonEmpty(p) + [] == NonEmpty(p);
        assert last.bytes == [];
        assert BlobBytes(events) == BlobBytes(p) + last.bytes;
      }
    }
  }

  // ---------------------------------------------------------------------------
  // The request body and playback
  // ---------------------------------------------------------------------------

  /** The JSON body `processRecording` posts. */
  datatype RequestPayload = RequestPayload(audioData: string, audioFormat: string, sampleRate: int)

  /** The body built around the base64 text of the recording. */
  function BuildRequest(base64Audio: string): (p: RequestPayload)
    ensures p.audioData == base64Audio
    ensures p.audioFormat == "webm"
    ensures p.sampleRate == Config.SampleRate
  {
    RequestPayload(base64Audio, "webm", Config.SampleRate)
  }

  /** The URL `processRecording` posts to. */
  function ProcessUrl(): (url: string)
    ensures Config.BaseUrl <= url
    ensures url[|Config.BaseUrl|..] == "/process-recording"
  {
    Config.GetApiUrl(Config.ProcessRecordingEndpoint)
  }

  /** The prefix `playFeedback` puts in front of the audio text. */
  const PlayPrefix: string := "data:audio/mp3;base64,"

  /** `playFeedback`: the source of the `Audio` element, or `None` when the
      feedback carries no (or empty) audio and nothing is played. */
  function PlaySource(audioFeedback: Option<string>): (src: Option<string>)
    ensures src.Some? <==> audioFeedback.Some? && audioFeedback.value != ""
    ensures src.Some? ==> PlayPrefix <= src.value && src.value[|PlayPrefix|..] == audioFeedback.value
  {
    if audioFeedback.Some? && audioFeedback.value != "" then Some(PlayPrefix + audioFeedback.value)
    else None
  }

  /** The playback source as evidently intended: the audio text is already a
      data URI, so it is played as it is; only bare base64 gets the prefix. */
  function PlaySourceFixed(audioFeedback: Option<string>): (src: Option<string>)
    ensures src.Some? <==> audioFeedback.Some? && audioFeedback.value != ""
    ensures src.Some? ==> PlayPrefix <= src.value
    ensures src.Some? && PlayPrefix <= audioFeedback.value ==> src.value == audioFeedback.value
  {
    if audioFeedback.Some? && audioFeedback.value != "" then
      Some(if PlayPrefix <= audioFeedback.value then audioFeedback.value else PlayPrefix + audioFeedback.value)
    else None
  }
}

=== FILE: backend.dfy ===
/** The request handler of the cloud function: request validation, storage
    keys, the transcription poll, transcript assembly, the local heuristic
    analyser, the feedback composer and the cleanup keys.

    Every call into an external service (base64 decoding, object storage,
    the transcription service) is replaced by its outcome, supplied in an
    `Environment`; the handler returns the calls it attempted as a trace of
    `Effect`s next to the response. */
module Backend {
  import opened Optional
  import Text

  /** `MAX_AUDIO_DURATION`, in seconds. The handler never consults it. */
  const MaxAudioDuration: int := 20 * 60

  const DefaultAudioFormat: string := "webm"
  const DefaultSampleRate: int := 8000

  // ---------------------------------------------------------------------------
  // Keys derived from the session id
  // ---------------------------------------------------------------------------

  /** The object key the uploaded audio is stored under. */
  function AudioKey(sessionId: string, format: string): (key: string)
    ensures |key| == 12 + |sessionId| + |format|
    ensures key[..11] == "recordings/" && key[11..11 + |sessionId|] == sessionId
    ensures key[11 + |sessionId|] == '.' && key[12 + |sessionId|..] == format
  {
    "recordings/" + sessionId + "." + format
  }

  /** The name of the transcription job. */
  function JobName(sessionId: string): (name: string)
    ensures "transcription-" <= name && name[14..] == sessionId
  {
    "transcription-" + sessionId
  }

  /** The location handed to the transcription service. */
  function MediaUri(bucket: string, key: string): (uri: string)
    ensures |uri| == 6 + |bucket| + |key|
    ensures "s3://" <= uri && uri[5..5 + |bucket|] == bucket
    ensures Text.EndsWith(uri, "/" + key)
  {
    "s3://" + bucket + "/" + key
  }

  /** The two keys `cleanup_temp_files` deletes, in order. The audio key
      always ends in `.webm`, whatever format the audio was stored in. */
  function CleanupKeys(sessionId: string): (keys: seq<string>)
    ensures |keys| == 2
    ensures keys[0] == AudioKey(sessionId, "webm")
    ensures "transcriptions/" <= keys[1] && keys[1][|keys[1]| - 5..] == ".json"
  {
    [AudioKey(sessionId, "webm"), "transcriptions/" + sessionId + ".json"]
  }

  /** The transcript key names the session: the id sits between
      `transcriptions/` and `.json`. */
  lemma TranscriptKeyNamesSession(sessionId: string)
    ensures var key := CleanupKeys(sessionId)[1];
      |key| == 20 + |sessionId| && key[15..15 + |sessionId|] == sessionId
  {
  }

  /** Different sessions never share a cleanup key. */
  lemma CleanupKeysInjective(a: string, b: string)
    requires CleanupKeys(a)[0] == CleanupKeys(b)[0] || CleanupKeys(a)[1] == CleanupKeys(b)[1]
    ensures a == b
  {
    TranscriptKeyNamesSession(a);
    TranscriptKeyNamesSession(b);
  }

  /** Cleanup keys as the cleanup evidently intends them: the key the audio
      was actually stored under, then the transcript key. */
  function CleanupKeysFor(sessionId: string, format: string): (keys: seq<string>)
    ensures |keys| == 2
    ensures keys[1] == CleanupKeys(sessionId)[1]
  {
    [AudioKey(sessionId, format), "transcriptions/" + sessionId + ".json"]
  }

  lemma AppendCancel(a: string, x: string, y: string)
    requires a + x == a + y
    ensures x == y
  {
    assert x == (a + x)[|a|..];
  }

  /** Different sessions get different job names. */
  lemma JobNameInjective(id1: string, id2: string)
    requires JobName(id1) == JobName(id2)
    ensures id1 == id2
  {
    AppendCancel("transcription-", id1, id2);
  }

  /** The audio key cleanup deletes is the stored key exactly when the
      stored format is `webm`. */
  lemma CleanupHitsStoredKeyIffWebm(sessionId: string, format: string)
    ensures CleanupKeys(sessionId)[0] == AudioKey(sessionId, format) <==> format == "webm"
  {
    if CleanupKeys(sessionId)[0] == AudioKey(sessionId, format) {
      AppendCancel("recordings/" + sessionId + ".", "webm", format);
    }
  }

  /** A concrete session whose stored audio the as-written cleanup leaves behind. */
  lemma CleanupMissesWavRecording()
    ensures AudioKey("req-1", "wav") !in CleanupKeys("req-1")
  {
    CleanupHitsStoredKeyIffWebm("req-1", "wav");
    assert CleanupKeys("req-1")[1] != AudioKey("req-1", "wav") by {
      assert CleanupKeys("req-1")[1][0] == 't';
    }
  }

  /** The corrected cleanup deletes the stored key for every format. */
  lemma CleanupKeysForHitsStoredKey(sessionId: string, format: string)
    ensures AudioKey(sessionId, format) in CleanupKeysFor(sessionId, format)
    ensures format == "webm" ==> CleanupKeysFor(sessionId, format) == CleanupKeys(sessionId)
  {
    assert CleanupKeysFor(sessionId, format)[0] == AudioKey(sessionId, format);
  }

  // ---------------------------------------------------------------------------
  // Transcription poll
  // ---------------------------------------------------------------------------

  /** The `TranscriptionJobStatus` of one `get_transcription_job` answer, or
      `QueryFailed` when that call raises. */
  datatype JobStatus =
    | Queued
    | InProgress
    | Completed(transcriptFileUri: string)
    | Failed(failureReason: Option<string>)
    | QueryFailed
  {
    /** The answer ends the poll loop, by returning or by raising. */
    predicate Terminal() {
      Completed? || Failed? || QueryFailed?
    }
  }

  /** Where the poll stands after the answers seen so far. `at` is the index of
      the answer that ended it; `Polling` means it is still sleeping and asking. */
  datatype PollResult =
    | Transcribed(at: nat)
    | JobFailed(at: nat, message: string)
    | QueryError(at: nat)
    | Polling

  /** The message of the exception a failed job raises. */
  function FailureMessage(reason: Option<string>): (msg: string)
    ensures "Transcription failed: " <= msg
    ensures reason.Some? ==> msg[22..] == reason.value
    ensures reason.None? ==> msg[22..] == "Unknown error"
  {
    "Transcription failed: " + reason.GetOr("Unknown error")
  }

  /** The `while True` loop of `start_transcription` over the sequence of
      statuses the service reports, one per `get_transcription_job` call. */
  function Poll(statuses: seq<JobStatus>): (r: PollResult)
    ensures r.Transcribed? ==> r.at < |statuses| && statuses[r.at].Completed?
    ensures r.JobFailed? ==>
      && r.at < |statuses| && statuses[r.at].Failed?
      && r.message == FailureMessage(statuses[r.at].failureReason)
    ensures r.QueryError? ==> r.at < |statuses| && statuses[r.at].QueryFailed?
    ensures !r.Polling? ==> forall j :: 0 <= j < r.at ==> !statuses[j].Terminal()
    ensures r.Polling? <==> forall j :: 0 <= j < |statuses| ==> !statuses[j].Terminal()
  {
    if |statuses| == 0 then Polling
    else match statuses[0]
      case Completed(_) => Transcribed(0)
      case Failed(reason) => JobFailed(0, FailureMessage(reason))
      case QueryFailed => QueryError(0)
      case _ =>
        match Poll(statuses[1..])
        case Transcribed(i) => Transcribed(i + 1)
        case JobFailed(i, msg) => JobFailed(i + 1, msg)
        case QueryError(i) => QueryError(i + 1)
        case Polling => Polling
  }

  /** Statuses the service reports after the poll has stopped are never read. */
  lemma {:induction false} PollIgnoresLaterStatuses(statuses: seq<JobStatus>, later: seq<JobStatus>)
    requires !Poll(statuses).Polling?
    ensures Poll(statuses + later) == Poll(statuses)
  {
    if !statuses[0].Terminal() {
      assert (statuses + later)[1..] == statuses[1..] + later;
      PollIgnoresLaterStatuses(statuses[1..], later);
    }
  }

  /** A job that stays in progress keeps the poll going, however long. */
  lemma {:induction false} PollNeverGivesUp(n: nat)
    ensures Poll(seq(n, _ => InProgress)).Polling?
  {
    var s := seq(n, _ => InProgress);
    assert forall j :: 0 <= j < |s| ==> !s[j].Terminal();
  }

  /** The object key of the transcript file: the text after the last `/` of
      its URI (`transcript_uri.split('/')[-1]`). */
  function LastSegment(uri: string): (seg: string)
    ensures |seg| <= |uri| && seg == uri[|uri| - |seg|..]
    ensures forall i :: 0 <= i < |seg| ==> seg[i] != '/'
    ensures |seg| < |uri| ==> uri[|uri| - |seg| - 1] == '/'
  {
    if |uri| == 0 || uri[|uri| - 1] == '/' then []
    else LastSegment(uri[..|uri| - 1]) + [uri[|uri| - 1]]
  }

  // ---------------------------------------------------------------------------
  // Transcript assembly
  // ---------------------------------------------------------------------------

  /** One entry of `results.transcripts`; `None` when it has no `transcript` key. */
  datatype TranscriptItem = TranscriptItem(transcript: Option<string>)

  /** The `results` object; `None` when it has no `transcripts` key. */
  datatype TranscriptResults = TranscriptResults(transcripts: Option<seq<TranscriptItem>>)

  /** The transcript document; `None` when it has no `results` key. */
  datatype TranscriptDoc = TranscriptDoc(results: Option<TranscriptResults>)

  /** The text an item contributes: its transcript, or `""` when it has none. */
  function ItemText(item: TranscriptItem): string {
    item.transcript.GetOr("")
  }

  /** The fragments of `items` joined in document order. */
  function ItemsText(items: seq<TranscriptItem>): string {
    if |items| == 0 then "" else ItemsText(items[..|items| - 1]) + ItemText(items[|items| - 1])
  }

  /** The items of a document, or none when a key on the way is missing. */
  function DocItems(doc: TranscriptDoc): seq<TranscriptItem> {
    match doc.results
    case None => []
    case Some(res) => res.transcripts.GetOr([])
  }

  /** The accumulation loop of `analyze_with_nova_sonic`. */
  method AssembleTranscript(doc: TranscriptDoc) returns (text: string)
    ensures text == ItemsText(DocItems(doc))
    ensures doc.results.None? ==> text == ""
    ensures doc.results.Some? && doc.results.value.transcripts.None? ==> text == ""
  {
    var items := DocItems(doc);
    text := "";
    var i := 0;
    while i < |items|
      invariant 0 <= i <= |items|
      invariant text == ItemsText(items[..i])
    {
      assert items[..i + 1][..i] == items[..i];
      text := text + ItemText(items[i]);
      i := i + 1;
    }
    assert items[..|items|] == items;
  }

  /** Assembly respects document order: the text of a concatenation of items
      is the concatenation of their texts. */
  lemma {:induction false} ItemsTextAppend(a: seq<TranscriptItem>, b: seq<TranscriptItem>)
    ensures ItemsText(a + b) == ItemsText(a) + ItemsText(b)
    decreases |b|
  {
    if |b| == 0 {
      assert a + b == a;
    } else {
      var b' := b[..|b| - 1];
      assert (a + b)[..|a + b| - 1] == a + b';
      ItemsTextAppend(a, b');
    }
  }

  /** A single item contributes its transcript, or nothing when it has none. */
  lemma ItemsTextSingle(item: TranscriptItem)
    ensures ItemsText([item]) == (if item.transcript.Some? then item.transcript.value else "")
  {
    assert [item][..0] == [];
  }

  /** The assembled text is exactly as long as the fragments put together. */
  lemma {:induction false} ItemsTextLength(items: seq<TranscriptItem>)
    ensures |ItemsText(items)| == TotalLength(items)
  {
    if |items| > 0 {
      ItemsTextLength(items[..|items| - 1]);
    }
  }

  function TotalLength(items: seq<TranscriptItem>): nat {
    if |items| == 0 then 0 else TotalLength(items[..|items| - 1]) + |ItemText(items[|items| - 1])|
  }

  // ---------------------------------------------------------------------------
  // Local heuristic analyser
  // ---------------------------------------------------------------------------

  const FillerMistake: string := "Reduce filler words (um, uh)"
  const ExpandMistake: string := "Consider expanding your content"

  /** `len(transcript_text.split())`. */
  function WordCount(text: string): (wc: nat)
    ensures wc == Text.StartCount(text)
  {
    Text.WordCountIsStartCount(text);
    |Text.Words(text)|
  }

  function Min(a: real, b: real): real { if a <= b then a else b }
  function Max(a: real, b: real): real { if a >= b then a else b }

  /** `min(85, max(40, 70 + word_count / 100))`, exactly, over the reals. */
  function Confidence(wordCount: nat): (c: real)
    ensures 70.0 <= c <= 85.0
    ensures c == 85.0 <==> wordCount >= 1500
    ensures c < 85.0 ==> c == 70.0 + wordCount as real / 100.0
  {
    Min(85.0, Max(40.0, 70.0 + wordCount as real / 100.0))
  }

  /** The lower clamp at 40 never takes effect. */
  lemma LowerClampInert(wordCount: nat)
    ensures Max(40.0, 70.0 + wordCount as real / 100.0) == 70.0 + wordCount as real / 100.0
  {
  }

  /** More words never lower the confidence. */
  lemma ConfidenceMonotone(w1: nat, w2: nat)
    requires w1 <= w2
    ensures Confidence(w1) <= Confidence(w2)
  {
  }

  /** The filler test: `'um'` or `'uh'` in the lower-cased text. */
  predicate HasFiller(text: string) {
    var lower := Text.ToLower(text);
    Text.Contains(lower, "um") || Text.Contains(lower, "uh")
  }

  /** A `u` or `U` followed by one of `m`, `M`, `h`, `H` at index `i`. */
  predicate FillerAt(text: string, i: int) {
    && 0 <= i && i + 1 < |text|
    && (text[i] == 'u' || text[i] == 'U')
    && (text[i + 1] == 'm' || text[i + 1] == 'M' || text[i + 1] == 'h' || text[i + 1] == 'H')
  }

  /** The filler test, read directly on the original text: it is a plain
      substring test, so words such as "number" or "much" trip it. */
  lemma HasFillerIff(text: string)
    ensures HasFiller(text) <==> exists i :: FillerAt(text, i)
  {
    if HasFiller(text) {
      FillerFound(text);
    }
    if exists i :: FillerAt(text, i) {
      var i :| FillerAt(text, i);
      FillerDetected(text, i);
    }
  }

  /** A reported filler sits at some index of the original text. */
  lemma FillerFound(text: string)
    requires HasFiller(text)
    ensures exists i :: FillerAt(text, i)
  {
    var lower := Text.ToLower(text);
    var sub := if Text.Contains(lower, "um") then "um" else "uh";
    assert Text.Contains(lower, sub);
    var i :| Text.OccursAt(lower, sub, i);
    assert lower[i..i + 2] == sub;
    assert lower[i] == 'u' && lower[i + 1] == sub[1];
    assert FillerAt(text, i);
  }

  /** A filler at any index is reported. */
  lemma FillerDetected(text: string, i: int)
    requires FillerAt(text, i)
    ensures HasFiller(text)
  {
    var lower := Text.ToLower(text);
    assert lower[i..i + 2] == [lower[i], lower[i + 1]];
    if text[i + 1] == 'm' || text[i + 1] == 'M' {
      assert Text.OccursAt(lower, "um", i);
    } else {
      assert Text.OccursAt(lower, "uh", i);
    }
  }

  /** "number" contains no filler word, yet it is reported as one. */
  lemma NumberCountsAsFiller()
    ensures HasFiller("number")
  {
    FillerDetected("number", 1);
  }

  /** The list built by `simulate_nova_sonic_analysis`. */
  function Mistakes(text: string, wordCount: nat): (ms: seq<string>)
    ensures FillerMistake in ms <==> HasFiller(text)
    ensures ExpandMistake in ms <==> wordCount < 50
    ensures |ms| <= 2
    ensures forall k :: 0 <= k < |ms| ==> ms[k] == FillerMistake || ms[k] == ExpandMistake
    ensures |ms| == 2 ==> ms[0] == FillerMistake && ms[1] == ExpandMistake
  {
    (if HasFiller(text) then [FillerMistake] else [])
      + (if wordCount < 50 then [ExpandMistake] else [])
  }

  /** The result of an analysis, as `generate_feedback` reads it. */
  datatype AnalysisResult = AnalysisResult(
    confidence: real,
    pronunciationMistakes: seq<string>,
    overallFeedback: string,
    wordCount: nat,
    duration: real)

  /** `simulate_nova_sonic_analysis(text)`. `summarize` is the stripped summary
      template, given the duration in minutes and the word count; the model
      leaves it abstract because it renders the duration as a float. */
  function LocalAnalysis(text: string, summarize: (real, nat) -> string): (a: AnalysisResult)
    ensures a.wordCount == Text.StartCount(text)
    ensures a.duration * 150.0 == a.wordCount as real
    ensures 70.0 <= a.confidence <= 85.0
    ensures a.confidence == 85.0 <==> a.wordCount >= 1500
    ensures FillerMistake in a.pronunciationMistakes <==> HasFiller(text)
    ensures ExpandMistake in a.pronunciationMistakes <==> a.wordCount < 50
    ensures |a.pronunciationMistakes| <= 2
    ensures a.confidence == Confidence(a.wordCount)
    ensures a.pronunciationMistakes == Mistakes(text, a.wordCount)
    ensures a.overallFeedback == summarize(a.duration, a.wordCount)
  {
    var wc := WordCount(text);
    var duration := wc as real / 150.0;
    AnalysisResult(Confidence(wc), Mistakes(text, wc), summarize(duration, wc), wc, duration)
  }

  // ---------------------------------------------------------------------------
  // Feedback composer and audio feedback
  // ---------------------------------------------------------------------------

  const LowRemark: string := "\n\nFocus on building confidence through practice and preparation."
  const MidRemark: string := "\n\nGood effort! Continue practicing to improve your delivery."
  const HighRemark: string := "\n\nExcellent presentation! Keep up the great work."

  /** The remark `generate_feedback` appends for a confidence. */
  function Remark(confidence: real): (r: string)
    ensures r == LowRemark <==> confidence < 50.0
    ensures r == MidRemark <==> 50.0 <= confidence < 70.0
    ensures r == HighRemark <==> 70.0 <= confidence
  {
    if confidence < 50.0 then LowRemark
    else if confidence < 70.0 then MidRemark
    else HighRemark
  }

  /** What `generate_feedback` returns. */
  datatype Feedback = Feedback(
    confidence: real,
    pronunciationMistakes: seq<string>,
    overallFeedback: string)

  /** `generate_feedback(analysis)`. */
  function GenerateFeedback(a: AnalysisResult): (f: Feedback)
    ensures f.confidence == a.confidence
    ensures f.pronunciationMistakes == a.pronunciationMistakes
    ensures a.overallFeedback <= f.overallFeedback
    ensures f.overallFeedback[|a.overallFeedback|..] in {LowRemark, MidRemark, HighRemark}
    ensures f.overallFeedback[|a.overallFeedback|..] == HighRemark <==> a.confidence >= 70.0
    ensures f.overallFeedback[|a.overallFeedback|..] == LowRemark <==> a.confidence < 50.0
  {
    Feedback(a.confidence, a.pronunciationMistakes, a.overallFeedback + Remark(a.confidence))
  }

  /** Composition with the local analyser always congratulates. */
  lemma LocalAnalysisAlwaysExcellent(text: string, summarize: (real, nat) -> string)
    ensures var a := LocalAnalysis(text, summarize);
      GenerateFeedback(a).overallFeedback == a.overallFeedback + HighRemark
  {
    var a := LocalAnalysis(text, summarize);
    var f := GenerateFeedback(a);
    assert f.overallFeedback == a.overallFeedback + f.overallFeedback[|a.overallFeedback|..];
  }

  /** The prefix every audio data URI carries. */
  const DataUriPrefix: string := "data:audio/mp3;base64,"

  /** The base64 text of the placeholder clip. Its first sixteen characters
      encode a RIFF/WAVE header, although the URI announces MP3. */
  const PlaceholderPayload: string := "UklGRnoGAABXQVZF" + "Zm10IBAAAAABAAEAQB8AAEAfAAABAAgAZGF0YQoGAACBhYqFbF1fdJivrJBhNjVgodDbq2EcBj+a2/LDciUFLIHO8tiJNwgZaLvt559NEAxQp+PwtmMcBjiR1/LMeSwFJHfH8N2QQAoUXrTp66hVFApGn+DyvmwhBSuBzvLZiTYIG2m98OScTgwOUarm7blmGgU7k9n1unEiBC13yO/eizEIHWq+8+OWT"

  /** The placeholder clip `generate_audio_feedback` returns, as a data URI. */
  const PlaceholderAudio: string := DataUriPrefix + PlaceholderPayload

  /** `generate_audio_feedback(feedback)`: the narration text is built but
      never used, so the result is the placeholder, whatever the feedback. */
  function GenerateAudioFeedback(f: Feedback): (uri: string)
    ensures DataUriPrefix <= uri
    ensures |uri| > |DataUriPrefix|
  {
    PlaceholderAudio
  }

  // ---------------------------------------------------------------------------
  // The handler
  // ---------------------------------------------------------------------------

  /** The request body after `json.loads`: `Unparsable` when it is not a JSON
      object; otherwise each field is `None` when the key is absent. A present
      `audioFormat` holds its value as an f-string renders it, so a JSON
      `null` is `Some("None")`. */
  datatype RequestBody =
    | Unparsable
    | Fields(audioData: Option<string>, audioFormat: Option<string>, sampleRate: Option<int>)

  /** The body used when the event carries none (`event.get('body', '{}')`). */
  const EmptyBody: RequestBody := Fields(None, None, None)

  /** Python truthiness of the `audioData` value: present and non-empty. */
  predicate HasAudio(body: RequestBody)
    requires body.Fields?
  {
    body.audioData.Some? && body.audioData.value != ""
  }

  /** `body.get('audioFormat', 'webm')`. */
  function FormatOf(body: RequestBody): string
    requires body.Fields?
  {
    body.audioFormat.GetOr(DefaultAudioFormat)
  }

  /** The outcomes of the external calls one invocation makes. */
  datatype Environment = Environment(
    bucket: string,                       // S3_BUCKET, read from the process environment
    requestId: string,                    // context.aws_request_id, the session id
    decodes: bool,                        // base64.b64decode succeeds
    putSucceeds: bool,                    // put_object succeeds
    startSucceeds: bool,                  // start_transcription_job succeeds
    statuses: seq<JobStatus>,             // successive get_transcription_job answers
    transcript: Option<TranscriptDoc>,    // the fetched and parsed transcript, None on failure
    cleanupSucceeds: bool)                // the first delete_object succeeds

  /** A call the handler makes on a service. */
  datatype Effect =
    | PutObject(bucket: string, key: string, contentType: string)
    | StartJob(jobName: string, mediaUri: string, mediaFormat: string, languageCode: string)
    | GetObject(bucket: string, key: string)
    | DeleteObject(bucket: string, key: string)

  datatype ResponseBody =
    | ErrorBody(error: string)
    | FeedbackBody(
        confidence: real,
        pronunciationMistakes: seq<string>,
        overallFeedback: string,
        audioFeedback: string)

  datatype Response = Response(statusCode: int, headers: seq<(string, string)>, body: ResponseBody)

  /** The invocation either returned, or is still inside the poll loop. */
  datatype Outcome =
    | Returned(response: Response, effects: seq<Effect>)
    | Waiting(effects: seq<Effect>)

  /** The headers every response carries. */
  const CorsHeaders: seq<(string, string)> := [
    ("Content-Type", "application/json"),
    ("Access-Control-Allow-Origin", "*"),
    ("Access-Control-Allow-Headers", "Content-Type"),
    ("Access-Control-Allow-Methods", "POST, OPTIONS")
  ]

  const NoAudioError: string := "No audio data provided"
  const InternalError: string := "Internal server error"

  function BadRequest(): Response {
    Response(400, CorsHeaders, ErrorBody(NoAudioError))
  }

  function ServerError(): Response {
    Response(500, CorsHeaders, ErrorBody(InternalError))
  }

  /** The deletes `cleanup_temp_files` attempts: a failed first delete raises
      inside its `try`, so the second is skipped and nothing propagates. */
  function CleanupEffects(bucket: string, sessionId: string, firstSucceeds: bool): (es: seq<Effect>)
    ensures 1 <= |es| <= 2
    ensures |es| == 2 <==> firstSucceeds
    ensures forall k :: 0 <= k < |es| ==> es[k].DeleteObject? && es[k].bucket == bucket
    ensures forall k :: 0 <= k < |es| ==> es[k].key == CleanupKeys(sessionId)[k]
  {
    var keys := CleanupKeys(sessionId);
    if firstSucceeds then [DeleteObject(bucket, keys[0]), DeleteObject(bucket, keys[1])]
    else [DeleteObject(bucket, keys[0])]
  }

  /** A call keyed by `sessionId`: the upload and the job's media use the
      audio key, the job name is derived from the id, and a delete targets
      one of the cleanup keys. */
  predicate KeyedEffect(e: Effect, bucket: string, sessionId: string, format: string) {
    match e
    case PutObject(b, key, ct) => b == bucket && key == AudioKey(sessionId, format) && ct == "audio/" + format
    case StartJob(name, uri, _, _) => name == JobName(sessionId) && uri == MediaUri(bucket, AudioKey(sessionId, format))
    case GetObject(b, _) => b == bucket
    case DeleteObject(b, key) => b == bucket && key in CleanupKeys(sessionId)
  }

  predicate KeyedBySession(es: seq<Effect>, bucket: string, sessionId: string, format: string) {
    forall k :: 0 <= k < |es| ==> KeyedEffect(es[k], bucket, sessionId, format)
  }

  /** The 200 response: the local analysis of the transcript, composed, with the placeholder clip. */
  function SuccessResponse(transcriptText: string, summarize: (real, nat) -> string): (resp: Response)
    ensures resp.statusCode == 200 && resp.headers == CorsHeaders && resp.body.FeedbackBody?
    ensures 70.0 <= resp.body.confidence <= 85.0
    ensures Text.EndsWith(resp.body.overallFeedback, HighRemark)
    ensures resp.body.audioFeedback == PlaceholderAudio
    ensures FillerMistake in resp.body.pronunciationMistakes <==> HasFiller(transcriptText)
    ensures ExpandMistake in resp.body.pronunciationMistakes <==> Text.StartCount(transcriptText) < 50
    ensures resp.body.confidence == Confidence(Text.StartCount(transcriptText))
    ensures resp.body.pronunciationMistakes == Mistakes(transcriptText, Text.StartCount(transcriptText))
    ensures resp.body.overallFeedback == LocalAnalysis(transcriptText, summarize).overallFeedback + HighRemark
  {
    var analysis := LocalAnalysis(transcriptText, summarize);
    var feedback := GenerateFeedback(analysis);
    LocalAnalysisAlwaysExcellent(transcriptText, summarize);
    assert feedback.overallFeedback == analysis.overallFeedback + HighRemark;
    assert feedback.overallFeedback[|feedback.overallFeedback| - |HighRemark|..] == HighRemark;
    Response(200, CorsHeaders, FeedbackBody(feedback.confidence, feedback.pronunciationMistakes, feedback.overallFeedback, GenerateAudioFeedback(feedback)))
  }

  /** `start_transcription(session_id, audio_key, ...)`: the job named after
      the session, over the stored audio, always declared `webm` in `en-US`. */
  function StartCall(env: Environment, audioKey: string): (e: Effect)
    ensures e.StartJob? && e.jobName == JobName(env.requestId)
    ensures e.mediaUri == MediaUri(env.bucket, audioKey)
    ensures e.mediaFormat == "webm" && e.languageCode == "en-US"
    ensures "transcription-" <= e.jobName && e.jobName[14..] == env.requestId
    ensures "s3://" <= e.mediaUri && Text.EndsWith(e.mediaUri, "/" + audioKey)
  {
    StartJob(JobName(env.requestId), MediaUri(env.bucket, audioKey), "webm", "en-US")
  }

  /** The upload and the job submission, both keyed by the session id. */
  function Submission(env: Environment, format: string): (es: seq<Effect>)
    ensures |es| == 2
    ensures es[0] == PutObject(env.bucket, AudioKey(env.requestId, format), "audio/" + format)
    ensures es[1] == StartJob(JobName(env.requestId), MediaUri(env.bucket, es[0].key), "webm", "en-US")
  {
    var audioKey := AudioKey(env.requestId, format);
    [PutObject(env.bucket, audioKey, "audio/" + format), StartCall(env, audioKey)]
  }

  /** The transcript fetch after a completed job. */
  function FetchCall(env: Environment): (e: Effect)
    requires Poll(env.statuses).Transcribed?
    ensures e.GetObject? && e.bucket == env.bucket
    ensures e.key == LastSegment(env.statuses[Poll(env.statuses).at].transcriptFileUri)
  {
    GetObject(env.bucket, LastSegment(env.statuses[Poll(env.statuses).at].transcriptFileUri))
  }

  /** The calls of a successful invocation: upload, job submission, transcript
      fetch, then the cleanup deletes. */
  function SuccessEffects(body: RequestBody, env: Environment): (es: seq<Effect>)
    requires body.Fields? && Poll(env.statuses).Transcribed?
    ensures |es| >= 4
    ensures es[..2] == Submission(env, FormatOf(body))
    ensures es[2] == FetchCall(env)
    ensures es[3..] == CleanupEffects(env.bucket, env.requestId, env.cleanupSucceeds)
    ensures KeyedBySession(es, env.bucket, env.requestId, FormatOf(body))
  {
    var fmt := FormatOf(body);
    var head := Submission(env, fmt) + [FetchCall(env)];
    var cleanup := CleanupEffects(env.bucket, env.requestId, env.cleanupSucceeds);
    FetchKeyed(env, fmt);
    CleanupKeyed(env.bucket, env.requestId, env.cleanupSucceeds, fmt);
    KeyedAppend(head, cleanup, env.bucket, env.requestId, fmt);
    assert head[..2] == Submission(env, fmt);
    PrefixOfAppend(head, cleanup, 2);
    assert (head + cleanup)[2] == head[2];
    assert (head + cleanup)[3..] == cleanup;
    head + cleanup
  }

  /** A prefix of `a` is a prefix of `a + b`. */
  lemma PrefixOfAppend<T>(a: seq<T>, b: seq<T>, n: nat)
    requires n <= |a|
    ensures (a + b)[..n] == a[..n]
  {
    assert forall k :: 0 <= k < n ==> (a + b)[..n][k] == a[..n][k];
  }

  /** The upload, the job start and the transcript fetch are keyed by the session. */
  lemma FetchKeyed(env: Environment, format: string)
    requires Poll(env.statuses).Transcribed?
    ensures KeyedBySession(Submission(env, format) + [FetchCall(env)], env.bucket, env.requestId, format)
  {
    var sub := Submission(env, format);
    SubmissionKeyed(env, format);
    FetchCallKeyed(env, format);
    KeyedAppend(sub, [FetchCall(env)], env.bucket, env.requestId, format);
  }

  /** The transcript fetch alone is keyed by the session: it goes to the bucket. */
  lemma FetchCallKeyed(env: Environment, format: string)
    requires Poll(env.statuses).Transcribed?
    ensures KeyedBySession([FetchCall(env)], env.bucket, env.requestId, format)
  {
    var fetch := [FetchCall(env)];
    assert KeyedEffect(fetch[0], env.bucket, env.requestId, format);
  }

  /** The upload and the job start are keyed by the session. */
  lemma SubmissionKeyed(env: Environment, format: string)
    ensures KeyedBySession(Submission(env, format), env.bucket, env.requestId, format)
  {
    var es := Submission(env, format);
    assert KeyedEffect(es[0], env.bucket, env.requestId, format);
    assert KeyedEffect(es[1], env.bucket, env.requestId, format);
  }

  /** The cleanup deletes are keyed by the session they clean up. */
  lemma CleanupKeyed(bucket: string, sessionId: string, firstSucceeds: bool, format: string)
    ensures KeyedBySession(CleanupEffects(bucket, sessionId, firstSucceeds), bucket, sessionId, format)
  {
    var es := CleanupEffects(bucket, sessionId, firstSucceeds);
    forall k | 0 <= k < |es|
      ensures KeyedEffect(es[k], bucket, sessionId, format)
    {
      assert es[k].key == CleanupKeys(sessionId)[k];
    }
  }

  /** Calls keyed by one session stay so when their traces are joined. */
  lemma KeyedAppend(a: seq<Effect>, b: seq<Effect>, bucket: string, sessionId: string, format: string)
    requires KeyedBySession(a, bucket, sessionId, format) && KeyedBySession(b, bucket, sessionId, format)
    ensures KeyedBySession(a + b, bucket, sessionId, format)
  {
    forall k | 0 <= k < |a + b|
      ensures KeyedEffect((a + b)[k], bucket, sessionId, format)
    {
      if k >= |a| {
        assert (a + b)[k] == b[k - |a|];
      }
    }
  }

  /** `lambda_handler(event, context)`; `summarize` is the summary template.
      Cleanup deletes the keys of `CleanupKeys`, as written: the audio key
      always ends in `.webm`. */
  function Handle(body: RequestBody, env: Environment, summarize: (real, nat) -> string): (out: Outcome)
    ensures out.Returned? ==> out.response.headers == CorsHeaders
    ensures out.Returned? ==> out.response.statusCode in {200, 400, 500}
    ensures out.Returned? && out.response.statusCode != 200 ==> out.response.body.ErrorBody?
  {
    match body
    case Unparsable => Returned(ServerError(), [])
    case Fields(_, _, _) =>
      if !HasAudio(body) then Returned(BadRequest(), [])
      else if !env.decodes then Returned(ServerError(), [])
      else
        var submitted := Submission(env, FormatOf(body));
        if !env.putSucceeds then Returned(ServerError(), submitted[..1])
        else if !env.startSucceeds then Returned(ServerError(), submitted)
        else
          match Poll(env.statuses)
          case Polling => Waiting(submitted)
          case JobFailed(_, _) => Returned(ServerError(), submitted)
          case QueryError(_) => Returned(ServerError(), submitted)
          case Transcribed(_) =>
            match env.transcript
            case None => Returned(ServerError(), submitted + [FetchCall(env)])
            case Some(doc) => Returned(SuccessResponse(ItemsText(DocItems(doc)), summarize), SuccessEffects(body, env))
  }

  /** Missing or empty audio is answered with 400 before any service is
      touched, and only missing audio is. */
  lemma HandleRejectsMissingAudio(body: RequestBody, env: Environment, summarize: (real, nat) -> string)
    ensures var out := Handle(body, env, summarize);
      (out.Returned? && out.response.statusCode == 400) <==> (body.Fields? && !HasAudio(body))
    ensures var out := Handle(body, env, summarize);
      body.Fields? && !HasAudio(body) ==> out.response.body == ErrorBody(NoAudioError) && out.effects == []
  {
  }

  /** An event without a body is read as `{}` and rejected with 400. */
  lemma HandleRejectsMissingBody(env: Environment, summarize: (real, nat) -> string)
    ensures Handle(EmptyBody, env, summarize) == Returned(BadRequest(), [])
  {
  }

  /** Every failure after the audio check is a 500 with the generic error. */
  lemma HandleServerErrors(body: RequestBody, env: Environment, summarize: (real, nat) -> string)
    ensures var out := Handle(body, env, summarize);
      out.Returned? && out.response.statusCode == 500 ==> out.response.body == ErrorBody(InternalError)
    ensures var out := Handle(body, env, summarize);
      body.Fields? && HasAudio(body) && (!env.decodes || !env.putSucceeds || !env.startSucceeds) ==>
        out.Returned? && out.response.statusCode == 500
    ensures var out := Handle(body, env, summarize);
      (body.Fields? && HasAudio(body) && env.decodes && env.putSucceeds && env.startSucceeds
        && (Poll(env.statuses).JobFailed? || Poll(env.statuses).QueryError?)) ==> out.Returned? && out.response.statusCode == 500
  {
  }

  /** Once the job has completed, the answer is 200 exactly when the
      transcript could be fetched and parsed. */
  lemma HandleAnswersAfterTranscription(body: RequestBody, env: Environment, summarize: (real, nat) -> string)
    requires body.Fields? && HasAudio(body) && env.decodes && env.putSucceeds && env.startSucceeds
    requires Poll(env.statuses).Transcribed?
    ensures Handle(body, env, summarize).Returned?
    ensures Handle(body, env, summarize).response.statusCode == 200 <==> env.transcript.Some?
  {
  }

  /** The poll has no bound: the invocation returns nothing while no terminal
      status has been reported. */
  lemma HandleWaitsWhilePolling(body: RequestBody, env: Environment, summarize: (real, nat) -> string)
    ensures Handle(body, env, summarize).Waiting? <==>
      && body.Fields? && HasAudio(body) && env.decodes && env.putSucceeds && env.startSucceeds
      && forall j :: 0 <= j < |env.statuses| ==> !env.statuses[j].Terminal()
  {
  }

  /** Every call the handler makes is keyed by the one session id. */
  lemma HandleKeyedBySession(body: RequestBody, env: Environment, summarize: (real, nat) -> string)
    requires body.Fields?
    ensures KeyedBySession(Handle(body, env, summarize).effects, env.bucket, env.requestId, FormatOf(body))
  {
    var fmt := FormatOf(body);
    var es := Submission(env, fmt);
    assert KeyedEffect(es[0], env.bucket, env.requestId, fmt);
    assert KeyedEffect(es[1], env.bucket, env.requestId, fmt);
    if HasAudio(body) && env.decodes && !env.putSucceeds {
      assert es[..1][0] == es[0];
    } else if HasAudio(body) && env.decodes && env.putSucceeds && env.startSucceeds
      && Poll(env.statuses).Transcribed? && env.transcript.None?
    {
      var t := es + [FetchCall(env)];
      assert t[0] == es[0] && t[1] == es[1] && t[2] == FetchCall(env);
      assert KeyedBySession(t, env.bucket, env.requestId, fmt);
    }
  }

  /** The outcome is a returned 200 answer. */
  predicate Answered200(out: Outcome) {
    out.Returned? && out.response.statusCode == 200
  }

  /** A 200 answer means the audio was stored, the job completed, and the
      local analysis of the fetched transcript was composed: confidence in
      [70, 85], the "Excellent" remark, the placeholder clip. The first delete
      removes the upload only when it was stored as `webm`. */
  lemma HandleSuccess(body: RequestBody, env: Environment, summarize: (real, nat) -> string)
    ensures Answered200(Handle(body, env, summarize)) ==>
      && body.Fields? && HasAudio(body) && env.decodes && env.putSucceeds && env.startSucceeds
      && Poll(env.statuses).Transcribed? && env.transcript.Some?
    ensures Answered200(Handle(body, env, summarize)) ==>
      var resp := Handle(body, env, summarize).response;
      && resp.body.FeedbackBody?
      && 70.0 <= resp.body.confidence <= 85.0
      && Text.EndsWith(resp.body.overallFeedback, HighRemark)
      && resp.body.audioFeedback == PlaceholderAudio
    ensures var es := Handle(body, env, summarize).effects;
      Answered200(Handle(body, env, summarize)) ==>
      && |es| >= 4
      && es[0] == PutObject(env.bucket, AudioKey(env.requestId, FormatOf(body)), "audio/" + FormatOf(body))
      && es[1] == StartJob(JobName(env.requestId), MediaUri(env.bucket, es[0].key), "webm", "en-US")
      && es[3] == DeleteObject(env.bucket, CleanupKeys(env.requestId)[0])
      && (es[3].key == es[0].key <==> FormatOf(body) == "webm")
    ensures Answered200(Handle(body, env, summarize)) ==>
      && env.transcript.Some? && body.Fields? && Poll(env.statuses).Transcribed?
      && Handle(body, env, summarize).response == SuccessResponse(ItemsText(DocItems(env.transcript.value)), summarize)
      && Handle(body, env, summarize).effects == SuccessEffects(body, env)
  {
    if Answered200(Handle(body, env, summarize)) {
      var es := SuccessEffects(body, env);
      assert es[0] == es[..2][0] && es[1] == es[..2][1];
      assert es[3] == es[3..][0];
      CleanupHitsStoredKeyIffWebm(env.requestId, FormatOf(body));
    }
  }

  /** Cleanup runs only on the success path: a failed or pending invocation
      leaves the stored audio in place. */
  lemma HandleCleansUpOnlyOnSuccess(body: RequestBody, env: Environment, summarize: (real, nat) -> string)
    ensures var out := Handle(body, env, summarize);
      !(out.Returned? && out.response.statusCode == 200) ==>
        forall k :: 0 <= k < |out.effects| ==> !out.effects[k].DeleteObject?
  {
  }
  /** The handler stops at the first call that raises: a failed invocation
      attempted exactly the calls up to and including the one that failed,
      and a pending one has submitted the job and fetched nothing. */
  lemma HandleFailureTrace(body: RequestBody, env: Environment, summarize: (real, nat) -> string)
    ensures (body.Unparsable? || !HasAudio(body) || !env.decodes) ==>
      Handle(body, env, summarize).effects == []
    ensures (body.Fields? && HasAudio(body) && env.decodes && !env.putSucceeds) ==>
      Handle(body, env, summarize).effects == Submission(env, FormatOf(body))[..1]
    ensures (body.Fields? && HasAudio(body) && env.decodes && env.putSucceeds
      && (!env.startSucceeds || !Poll(env.statuses).Transcribed?)) ==>
      Handle(body, env, summarize).effects == Submission(env, FormatOf(body))
    ensures (body.Fields? && HasAudio(body) && env.decodes && env.putSucceeds && env.startSucceeds
      && Poll(env.statuses).Transcribed? && env.transcript.None?) ==>
      Handle(body, env, summarize).effects == Submission(env, FormatOf(body)) + [FetchCall(env)]
  {
  }

}

=== FILE: config.dfy ===
/** The front end's configuration object and its two helpers. */
module Config {

  /** `config.api.baseUrl`. */
  const BaseUrl: string := "https://vbtbb826n2.execute-api.us-east-1.amazonaws.com/prod"

  /** `config.api.endpoints.processRecording`. */
  const ProcessRecordingEndpoint: string := "/process-recording"

  /** `config.audio.sampleRate`, in hertz. */
  const SampleRate: int := 8000

  /** `config.audio.maxDuration`, in seconds: twenty minutes. */
  const MaxDuration: int := 20 * 60

  /** `config.audio.mimeType`. */
  const MimeType: string := "audio/webm;codecs=opus"

  /** `config.ui.recordingButtonSize`, in pixels. */
  const MobileButtonSize: int := 120
  const TabletButtonSize: int := 150
  const DesktopButtonSize: int := 200

  /** Breakpoints of `getRecordingButtonSize`, in pixels. */
  const MobileMaxWidth: int := 480
  const TabletMaxWidth: int := 768

  /** `getApiUrl(endpoint)`: the endpoint path appended to the base URL. */
  function GetApiUrl(endpoint: string): (url: string)
    ensures |url| == |BaseUrl| + |endpoint|
    ensures BaseUrl <= url
    ensures url[|BaseUrl|..] == endpoint
  {
    BaseUrl + endpoint
  }

  /** Distinct endpoints give distinct URLs: the endpoint can be read back. */
  lemma GetApiUrlInjective(e1: string, e2: string)
    requires GetApiUrl(e1) == GetApiUrl(e2)
    ensures e1 == e2
  {
    assert e1 == GetApiUrl(e1)[|BaseUrl|..];
  }

  /** The URL the recording is posted to. */
  lemma ProcessingUrl()
    ensures GetApiUrl(ProcessRecordingEndpoint) == BaseUrl + "/process-recording"
    ensures GetApiUrl(ProcessRecordingEndpoint)[|BaseUrl|..] == "/process-recording"
  {
  }

  /** `getRecordingButtonSize()`, with the window width passed in. */
  function RecordingButtonSize(width: int): (size: int)
    ensures size == MobileButtonSize || size == TabletButtonSize || size == DesktopButtonSize
    ensures size == MobileButtonSize <==> width <= MobileMaxWidth
    ensures size == TabletButtonSize <==> MobileMaxWidth < width <= TabletMaxWidth
    ensures size == DesktopButtonSize <==> TabletMaxWidth < width
  {
    if width <= MobileMaxWidth then MobileButtonSize
    else if width <= TabletMaxWidth then TabletButtonSize
    else DesktopButtonSize
  }

  /** A wider window never gets a smaller button. */
  lemma ButtonSizeMonotone(w1: int, w2: int)
    requires w1 <= w2
    ensures RecordingButtonSize(w1) <= RecordingButtonSize(w2)
  {
  }
}

=== FILE: consistency.dfy ===
/** Facts that tie the front end, its configuration and the cloud function
    together: the request the front end sends, as the handler reads it, and
    the audio the handler returns, as the front end plays it. */
module Consistency {
  import opened Optional
  import Config
  import Backend
  import App

  /** The handler's view of a front-end request body once it has been
      serialised and parsed again (the JSON round trip is taken as exact). */
  function AsHandlerBody(p: App.RequestPayload): (body: Backend.RequestBody)
    ensures body.Fields?
    ensures body.audioData == Some(p.audioData)
    ensures Backend.FormatOf(body) == p.audioFormat
  {
    Backend.Fields(Some(p.audioData), Some(p.audioFormat), Some(p.sampleRate))
  }

  /** The recording limit is the same twenty minutes on both sides. */
  lemma MaxDurationAgrees()
    ensures App.MaxDuration == Config.MaxDuration == Backend.MaxAudioDuration == 1200
  {
  }

  /** The front end always sends the handler's default format and sample rate. */
  lemma RequestMatchesHandlerDefaults(base64Audio: string)
    ensures App.BuildRequest(base64Audio).audioFormat == Backend.DefaultAudioFormat
    ensures App.BuildRequest(base64Audio).sampleRate == Backend.DefaultSampleRate
  {
  }

  /** The recorder's container is the format the request declares: the
      upload's content type is the recorder's MIME type without its codec
      parameter. */
  lemma UploadTypeMatchesRecorder(base64Audio: string, env: Backend.Environment)
    ensures var fmt := App.BuildRequest(base64Audio).audioFormat;
      var contentType := Backend.Submission(env, fmt)[0].contentType;
      contentType <= Config.MimeType && Config.MimeType[|contentType|] == ';'
  {
  }

  /** For front-end requests the stored key is `.webm`, so the cleanup as
      written deletes the audio it stored, and agrees with the corrected one. */
  lemma FrontEndUploadsAreCleanedUp(base64Audio: string, sessionId: string)
    ensures var body := AsHandlerBody(App.BuildRequest(base64Audio));
      && Backend.CleanupKeys(sessionId)[0] == Backend.AudioKey(sessionId, Backend.FormatOf(body))
      && Backend.CleanupKeysFor(sessionId, Backend.FormatOf(body)) == Backend.CleanupKeys(sessionId)
  {
    Backend.CleanupHitsStoredKeyIffWebm(sessionId, "webm");
    Backend.CleanupKeysForHitsStoredKey(sessionId, "webm");
  }

  /** A recording with no data is sent as empty base64 text, which the handler
      rejects with 400 before touching any service. */
  lemma EmptyRecordingIsRejected(env: Backend.Environment, summarize: (real, nat) -> string)
    ensures var out := Backend.Handle(AsHandlerBody(App.BuildRequest("")), env, summarize);
      out.Returned? && out.response.statusCode == 400 && out.effects == []
  {
    Backend.HandleRejectsMissingAudio(AsHandlerBody(App.BuildRequest("")), env, summarize);
  }

  /** Both sides spell the data-URI prefix the same way. */
  lemma SamePrefix()
    ensures App.PlayPrefix == Backend.DataUriPrefix
  {
  }

  /** The audio the handler returns already carries the prefix, and
      `playFeedback` adds it again: the played source starts with it twice. */
  lemma PlayedPlaceholderHasPrefixTwice()
    ensures var src := App.PlaySource(Some(Backend.PlaceholderAudio));
      src.Some? && App.PlayPrefix + App.PlayPrefix <= src.value
  {
    var src := App.PlaySource(Some(Backend.PlaceholderAudio));
    assert src.value == App.PlayPrefix + Backend.PlaceholderAudio;
    assert Backend.PlaceholderAudio[..|App.PlayPrefix|] == App.PlayPrefix;
  }

  /** Every 200 answer is played with the doubled prefix. */
  lemma SuccessfulAnswerPlaysDoubledPrefix(body: Backend.RequestBody, env: Backend.Environment, summarize: (real, nat) -> string)
    ensures Backend.Answered200(Backend.Handle(body, env, summarize)) ==>
      var resp := Backend.Handle(body, env, summarize).response;
      && resp.body.FeedbackBody?
      && var src := App.PlaySource(Some(resp.body.audioFeedback));
      src.Some? && App.PlayPrefix + App.PlayPrefix <= src.value
  {
    Backend.HandleSuccess(body, env, summarize);
    PlayedPlaceholderHasPrefixTwice();
  }

  /** The corrected playback plays the handler's data URI as it is, with the
      prefix exactly once. */
  lemma FixedPlaybackHasPrefixOnce()
    ensures App.PlaySourceFixed(Some(Backend.PlaceholderAudio)) == Some(Backend.PlaceholderAudio)
    ensures App.PlayPrefix <= Backend.PlaceholderAudio
    ensures !(App.PlayPrefix <= Backend.PlaceholderAudio[|App.PlayPrefix|..])
  {
    assert Backend.PlaceholderAudio[|App.PlayPrefix|..] == Backend.PlaceholderPayload;
    assert Backend.PlaceholderPayload[0] == 'U';
  }

  /** Every duration the timer can reach is displayed as `MM:SS`. */
  lemma TimerDisplayFits(n: nat)
    ensures var d := App.Ticks(App.Started, n).state.duration;
      d >= 0 && |App.FormatTime(d)| == 5 && App.FormatTime(d)[2] == ':'
  {
    App.DurationBounded(n);
  }
}

=== FILE: optional.dfy ===
/** A value that may be missing: a key absent from a JSON object, or a field
    the caller did not send. */
module Optional {

  datatype Option<+T> = None | Some(value: T) {

    /** The value, or `default` when it is missing (Python's `dict.get(key, default)`). */
    function GetOr(default: T): (r: T)
      ensures Some? ==> r == value
      ensures None? ==> r == default
    {
      match this
      case Some(v) => v
      case None => default
    }
  }
}

=== FILE: text.dfy ===
/** String operations the source takes from its languages' standard
    libraries: Python's `str.split()`, `str.lower()` and `in`, and
    JavaScript's `Number.prototype.toString()` and `String.prototype.padStart`. */
module Text {

  // ---------------------------------------------------------------------------
  // Whitespace splitting (Python `str.split()` with no separator)
  // ---------------------------------------------------------------------------

  /** The characters Python's `str.isspace()` accepts; `str.split()` with no
      separator breaks on runs of exactly these. */
  predicate IsSpace(c: char) {
    || '\t' <= c <= '\r'
    || '\U{1C}' <= c <= '\U{1F}'
    || c == ' ' || c == '\U{85}' || c == '\U{A0}' || c == '\U{1680}'
    || '\U{2000}' <= c <= '\U{200A}'
    || c == '\U{2028}' || c == '\U{2029}' || c == '\U{202F}' || c == '\U{205F}'
    || c == '\U{3000}'
  }

  /** A word as `str.split()` returns it: non-empty, with no whitespace. */
  predicate IsWord(w: string) {
    |w| > 0 && forall i :: 0 <= i < |w| ==> !IsSpace(w[i])
  }

  /** Length of the leading run of non-whitespace characters of `s`. */
  function TokenLength(s: string): (n: nat)
    ensures n <= |s|
    ensures forall i :: 0 <= i < n ==> !IsSpace(s[i])
    ensures n < |s| ==> IsSpace(s[n])
  {
    if |s| == 0 || IsSpace(s[0]) then 0 else 1 + TokenLength(s[1..])
  }

  /** Python's `s.split()`: the maximal whitespace-free runs of `s`, in order. */
  function Words(s: string): (ws: seq<string>)
    ensures forall k :: 0 <= k < |ws| ==> IsWord(ws[k])
    ensures |ws| <= |s|
    decreases |s|
  {
    if |s| == 0 then []
    else if IsSpace(s[0]) then Words(s[1..])
    else
      var n := TokenLength(s);
      [s[..n]] + Words(s[n..])
  }

  /** Position `i` starts a word: a non-space at the start of `s` or right after a space. */
  predicate WordStartAt(s: string, i: int)
    requires 0 <= i < |s|
  {
    !IsSpace(s[i]) && (i == 0 || IsSpace(s[i - 1]))
  }

  /** The number of word starts in `s`, counted left to right: a reference
      definition of the word count that does not cut `s` into words. */
  function StartCount(s: string): nat
    decreases |s|
  {
    if |s| == 0 then 0
    else StartCount(s[..|s| - 1]) + (if WordStartAt(s, |s| - 1) then 1 else 0)
  }

  /** `TokenLength` is the only length that fits its description. */
  lemma {:induction false} TokenLengthUnique(s: string, n: nat)
    requires n <= |s|
    requires forall i :: 0 <= i < n ==> !IsSpace(s[i])
    requires n < |s| ==> IsSpace(s[n])
    ensures TokenLength(s) == n
    decreases n
  {
    if n > 0 {
      TokenLengthUnique(s[1..], n - 1);
    }
  }

  /** Appending one character adds a word exactly when it starts one. */
  lemma {:induction false} WordsSnoc(s: string, c: char)
    ensures |Words(s + [c])| == |Words(s)| + (if !IsSpace(c) && (|s| == 0 || IsSpace(s[|s| - 1])) then 1 else 0)
    decreases |s|, 1
  {
    var t := s + [c];
    if |s| == 0 {
      assert t == [c];
      if !IsSpace(c) {
        TokenLengthUnique(t, 1);
        assert t[1..] == [];
      }
    } else if IsSpace(s[0]) {
      assert t[1..] == s[1..] + [c];
      WordsSnoc(s[1..], c);
    } else {
      WordsSnocAfterWord(s, c);
    }
  }

  /** `WordsSnoc` when `s` starts with a word. */
  lemma {:induction false} WordsSnocAfterWord(s: string, c: char)
    requires |s| > 0 && !IsSpace(s[0])
    ensures |Words(s + [c])| == |Words(s)| + (if !IsSpace(c) && IsSpace(s[|s| - 1]) then 1 else 0)
    decreases |s|, 0
  {
    var t := s + [c];
    var n := TokenLength(s);
    assert |Words(s)| == 1 + |Words(s[n..])|;
    if n < |s| {
      TokenLengthUnique(t, n);
      assert t[n..] == s[n..] + [c];
      assert |Words(t)| == 1 + |Words(t[n..])|;
      WordsSnoc(s[n..], c);
    } else if IsSpace(c) {
      TokenLengthUnique(t, n);
      assert t[n..] == [c];
      assert |Words(t)| == 1 + |Words(t[n..])|;
    } else {
      TokenLengthUnique(t, n + 1);
      assert t[n + 1..] == [];
      assert |Words(t)| == 1 + |Words(t[n + 1..])|;
    }
  }

  /** The word count `len(s.split())` equals the number of word starts. */
  lemma {:induction false} WordCountIsStartCount(s: string)
    ensures |Words(s)| == StartCount(s)
    decreases |s|
  {
    if |s| > 0 {
      var p := s[..|s| - 1];
      var c := s[|s| - 1];
      assert s == p + [c];
      WordsSnoc(p, c);
      WordCountIsStartCount(p);
    }
  }

  /** `w` occurs in `s` at `p` as a maximal run: whitespace or the edge of `s`
      on either side. */
  predicate RunAt(s: string, w: string, p: nat) {
    && p + |w| <= |s| && s[p..p + |w|] == w
    && (p == 0 || IsSpace(s[p - 1]))
    && (p + |w| == |s| || IsSpace(s[p + |w|]))
  }

  /** `w` is a maximal whitespace-free run somewhere in `s`. */
  predicate IsRunOf(s: string, w: string) {
    exists p: nat :: p <= |s| && RunAt(s, w, p)
  }

  /** A run of `s[off..]` is a run of `s` at the shifted position, provided it
      does not start right after a non-space of `s`. */
  lemma RunShift(s: string, off: nat, w: string, p: nat)
    requires off <= |s| && RunAt(s[off..], w, p)
    requires p > 0 || off == 0 || IsSpace(s[off - 1])
    ensures RunAt(s, w, p + off)
  {
    assert s[p + off..p + off + |w|] == s[off..][p..p + |w|];
    if p > 0 {
      assert s[p + off - 1] == s[off..][p - 1];
    }
    if p + |w| < |s[off..]| {
      assert s[p + off + |w|] == s[off..][p + |w|];
    }
  }

  /** Every word `split()` returns is a maximal whitespace-free run of `s`. */
  lemma {:induction false} WordsAreMaximalRuns(s: string)
    ensures forall k :: 0 <= k < |Words(s)| ==> IsRunOf(s, Words(s)[k])
    decreases |s|
  {
    if |s| > 0 {
      ghost var ws := Words(s);
      if IsSpace(s[0]) {
        WordsAreMaximalRuns(s[1..]);
        assert ws == Words(s[1..]);
        forall k | 0 <= k < |ws|
          ensures IsRunOf(s, ws[k])
        {
          assert IsRunOf(s[1..], ws[k]);
          var p: nat :| RunAt(s[1..], ws[k], p);
          RunShift(s, 1, ws[k], p);
        }
      } else {
        var n := TokenLength(s);
        var rest := Words(s[n..]);
        WordsAreMaximalRuns(s[n..]);
        assert ws == [s[..n]] + rest;
        forall k | 0 <= k < |ws|
          ensures IsRunOf(s, ws[k])
        {
          if k == 0 {
            assert s[0..n] == ws[0];
            assert RunAt(s, ws[0], 0);
          } else {
            assert ws[k] == rest[k - 1];
            assert IsRunOf(s[n..], rest[k - 1]);
            var p: nat :| RunAt(s[n..], rest[k - 1], p);
            RunShift(s, n, ws[k], p);
          }
        }
      }
    }
  }

  /** Concatenation of a sequence of strings. */
  function Concat(ss: seq<string>): string {
    if |ss| == 0 then [] else ss[0] + Concat(ss[1..])
  }

  /** `s` with every whitespace character removed. */
  function RemoveSpaces(s: string): (r: string)
    ensures |r| <= |s|
  {
    if |s| == 0 then []
    else if IsSpace(s[0]) then RemoveSpaces(s[1..])
    else [s[0]] + RemoveSpaces(s[1..])
  }

  lemma {:induction false} RemoveSpacesOfWord(w: string)
    requires forall i :: 0 <= i < |w| ==> !IsSpace(w[i])
    ensures RemoveSpaces(w) == w
  {
    if |w| > 0 {
      RemoveSpacesOfWord(w[1..]);
    }
  }

  lemma {:induction false} RemoveSpacesAppend(a: string, b: string)
    ensures RemoveSpaces(a + b) == RemoveSpaces(a) + RemoveSpaces(b)
  {
    if |a| > 0 {
      assert (a + b)[1..] == a[1..] + b;
      RemoveSpacesAppend(a[1..], b);
    } else {
      assert a + b == b;
    }
  }

  /** The words of `s`, put back together, are its non-whitespace characters in order. */
  lemma {:induction false} WordsKeepContent(s: string)
    ensures Concat(Words(s)) == RemoveSpaces(s)
    decreases |s|
  {
    if |s| > 0 {
      if IsSpace(s[0]) {
        WordsKeepContent(s[1..]);
      } else {
        var n := TokenLength(s);
        WordsKeepContent(s[n..]);
        var ws := [s[..n]] + Words(s[n..]);
        assert ws[1..] == Words(s[n..]);
        RemoveSpacesOfWord(s[..n]);
        assert s == s[..n] + s[n..];
        RemoveSpacesAppend(s[..n], s[n..]);
      }
    }
  }

  // ---------------------------------------------------------------------------
  // Lower-casing and substring search
  // ---------------------------------------------------------------------------

  function LowerChar(c: char): char {
    if 'A' <= c <= 'Z' then (c as int + 32) as char else c
  }

  /** `s.lower()`, for the ASCII letters. */
  function ToLower(s: string): (r: string)
    ensures |r| == |s|
    ensures forall i :: 0 <= i < |s| ==> r[i] == LowerChar(s[i])
  {
    seq(|s|, i requires 0 <= i < |s| => LowerChar(s[i]))
  }

  /** `s` ends with `suffix`. */
  predicate EndsWith(s: string, suffix: string) {
    |suffix| <= |s| && s[|s| - |suffix|..] == suffix
  }

  /** `sub` occurs in `s` starting at index `i`. */
  predicate OccursAt(s: string, sub: string, i: int) {
    0 <= i && i + |sub| <= |s| && s[i..i + |sub|] == sub
  }

  /** Python's `sub in s`, scanning `s` from the left. */
  function Contains(s: string, sub: string): (b: bool)
    ensures b <==> exists i :: OccursAt(s, sub, i)
    decreases |s|
  {
    if sub <= s then
      assert OccursAt(s, sub, 0);
      true
    else if |s| == 0 then
      false
    else
      var b := Contains(s[1..], sub);
      if b then
        var i :| OccursAt(s[1..], sub, i);
        assert OccursAt(s, sub, i + 1);
        true
      else
        assert forall i :: OccursAt(s, sub, i) ==> i > 0 && OccursAt(s[1..], sub, i - 1);
        false
  }

  // ---------------------------------------------------------------------------
  // Decimal rendering and left padding
  // ---------------------------------------------------------------------------

  predicate IsDigit(c: char) {
    '0' <= c <= '9'
  }

  predicate AllDigits(s: string) {
    forall i :: 0 <= i < |s| ==> IsDigit(s[i])
  }

  function DigitChar(d: nat): (c: char)
    requires d < 10
    ensures IsDigit(c)
  {
    ('0' as int + d) as char
  }

  /** The number a string of decimal digits denotes (the empty string denotes 0). */
  function DigitsValue(s: string): nat
    requires AllDigits(s)
  {
    if |s| == 0 then 0
    else DigitsValue(s[..|s| - 1]) * 10 + (s[|s| - 1] as int - '0' as int)
  }

  /** The decimal rendering of a non-negative integer, as `n.toString()` in
      JavaScript and `str(n)` in Python produce it. */
  function NatToString(n: nat): (r: string)
    ensures |r| > 0 && AllDigits(r)
    ensures r[0] == '0' ==> r == "0"
  {
    if n < 10 then [DigitChar(n)] else NatToString(n / 10) + [DigitChar(n % 10)]
  }

  /** Reading the rendered digits back gives the number. */
  lemma {:induction false} NatToStringRoundTrip(n: nat)
    ensures DigitsValue(NatToString(n)) == n
  {
    if n >= 10 {
      NatToStringRoundTrip(n / 10);
      var r := NatToString(n);
      assert r[..|r| - 1] == NatToString(n / 10);
    }
  }

  /** A rendering fits in two characters exactly when the number is below 100. */
  lemma {:induction false} NatToStringShort(n: nat)
    ensures |NatToString(n)| <= 2 <==> n < 100
  {
    if n >= 10 {
      NatToStringShort(n / 10);
    }
  }

  /** `c` repeated `k` times. */
  function Repeat(c: char, k: nat): (r: string)
    ensures |r| == k
    ensures forall i :: 0 <= i < k ==> r[i] == c
  {
    if k == 0 then [] else [c] + Repeat(c, k - 1)
  }

  /** JavaScript's `s.padStart(width, c)` for a one-character pad string. */
  function PadStart(s: string, width: nat, c: char): (r: string)
    ensures |r| == if |s| >= width then |s| else width
    ensures r[|r| - |s|..] == s
    ensures forall i :: 0 <= i < |r| - |s| ==> r[i] == c
  {
    if |s| >= width then s else Repeat(c, width - |s|) + s
  }

  /** Leading zeros do not change the number a digit string denotes. */
  lemma {:induction false} LeadingZeros(k: nat, s: string)
    requires AllDigits(s)
    ensures AllDigits(Repeat('0', k) + s)
    ensures DigitsValue(Repeat('0', k) + s) == DigitsValue(s)
    decreases |s|, k
  {
    var t := Repeat('0', k) + s;
    if |s| == 0 {
      assert t == Repeat('0', k);
      if k > 0 {
        assert t[..|t| - 1] == Repeat('0', k - 1) + s;
        LeadingZeros(k - 1, s);
      }
    } else {
      assert t[..|t| - 1] == Repeat('0', k) + s[..|s| - 1];
      LeadingZeros(k, s[..|s| - 1]);
    }
  }
}
